=== FILE: README.md ===
# Lexer for a small Forth-like language, modelled in Dafny

This project models the single-pass lexer of a small stack-oriented,
Forth-like language (`src/lexer.cpp`). The lexer reads source text one
character at a time. It keeps one in-progress token, the accumulator, which
carries a category, text, line, column and file path. On delimiter
characters it closes that token into the output vector.

Files:

- `token_type.dfy` (module `TokenTypes`): the sixteen token categories and the
  fixed two-way table between each category and its upper-case name.
- `lexer.dfy` (module `Lexer`): the `Token` record and the scanner state
  `Scan` (output so far plus accumulator). `EndToken` closes the accumulator.
  `Step` is one iteration of the character loop, `Run` folds `Step` over the
  input, and `Lex` runs from the initial state. `LexStream` is the same loop
  written imperatively and proved equal to `Lex`.
- `lexer_properties.dfy` (module `LexerProperties`): what can be emitted, how
  many tokens, their text, and line/column bookkeeping.
- `lexer_segments.dfy` (module `LexerSegments`): what the scanner does with
  whole segments of input: words, numbers with a dot, runs of operators,
  quoted literals and line comments.
- `lexer_examples.dfy` (module `LexerExamples`): worked inputs, including the
  scanner's quirks, each cut into those segments.
- `wrappers.dfy` (module `Wrappers`): `Option`.

The model keeps the scanner's behaviour as written, quirks included:

- A word that starts with digits becomes an identifier (`2dup` gives `2DUP`).
- Operator characters overwrite the category without closing the token
  (`+-` gives one MINUS token with empty text).
- A `.` after anything other than an integer sets DOT and appends nothing.
- Digits are appended whatever the category (`+1 ` gives PLUS with text `1`).
- A `/` after another category is swallowed.
- A `/` accumulator that has picked up text keeps the SLASH category, so the
  next `/` still opens a comment (`/x/` opens a comment holding `X`).
- The token still pending at end of input is never flushed.

`Whitespace` is kept as the "no token yet" sentinel, as in the code, rather
than a separate variant.

## Model

| member | source | states |
|---|---|---|
| TokenTypes.ToString | src/lexer.cpp:5-25 | every category has a non-empty canonical name made of upper-case letters and `_` |
| TokenTypes.ToTokenType | src/lexer.cpp:159-161 | a name maps back to a category carrying exactly that name, and yields `None` only when no category has that name |
| TokenTypes.NamesDistinct | src/lexer.cpp:5-23 | no two categories share a name |
| TokenTypes.ToTokenTypeOfToString | src/lexer.cpp:156-161 | looking up the name of any category gives back that category |
| TokenTypes.ToStringOfToTokenType | src/lexer.cpp:156-161 | naming the category found for a known name gives back the name |
| Lexer.ToUpper | src/lexer.cpp:131 | the result is never a lower-case ASCII letter; each lower-case letter maps to its own capital (same distance from `A` as the letter from `a`) and everything else is unchanged |
| Lexer.EndToken | src/lexer.cpp:27-33 | output grows by at most one element, exactly when the category is significant, and that element is the pre-call accumulator; afterwards the accumulator is WHITESPACE with empty text, at the same line, column and file path |
| Lexer.Dispatch | src/lexer.cpp:58-133 | outside strings and comments, a delimiter closes the accumulator, emitting it exactly when its category is significant, and leaves an empty accumulator that is STRING_LITERAL after a quote and WHITESPACE otherwise; any other character emits nothing and at most appends its upper-cased self; a newline moves to the next line at column 1, and the file path is kept |
| Lexer.Step | src/lexer.cpp:42-135 | one character emits at most one token, only on a delimiter, and that token is the accumulator as it stood before the character; a newline outside a string literal moves to the next line at column 1, and every other character moves one column right |
| Lexer.Run | src/lexer.cpp:36-40 | consuming input only appends to the output and keeps the file path |
| Lexer.RunEmitsSignificant | src/lexer.cpp:27-33 | every token emitted while consuming input is neither WHITESPACE nor COMMENT and carries the accumulator's file path |
| Lexer.Lex | src/lexer.cpp:35-138 | no emitted token is WHITESPACE or COMMENT, and each carries the file path the scan was started with |
| Lexer.LexStream | src/lexer.cpp:35-138 | the character loop returns exactly the tokens of the per-character fold, for every input, with no error path |
| LexerProperties.StepKeepsInvariant | src/lexer.cpp:42-133 | each character keeps the accumulator free of BACKSLASH/STAR and of lower-case text outside strings and comments, and empty in the WHITESPACE state; each emitted token is valid |
| LexerProperties.RunKeepsInvariant | src/lexer.cpp:40-136 | the same invariant holds after any input |
| LexerProperties.LexOutputIsValid | src/lexer.cpp:27-137 | no emitted token is WHITESPACE, COMMENT, BACKSLASH or STAR; a non-string token contains no lower-case letter; every token carries the scan's file path |
| LexerProperties.RunTokenCount | src/lexer.cpp:42-116 | the tokens emitted while consuming input number at most the delimiters (space, tab, CR, newline, `"`) in it |
| LexerProperties.LexTokenCount | src/lexer.cpp:35-138 | a scan emits at most one token per delimiter character of its input |
| LexerProperties.LexWithoutDelimiterIsEmpty | src/lexer.cpp:40-137 | input without a delimiter yields no tokens, so end of input never flushes the pending token |
| LexerProperties.RunBlanks | src/lexer.cpp:106-116 | from an empty accumulator, blanks emit nothing and leave the accumulator in the WHITESPACE state |
| LexerProperties.LexBlanksIsEmpty | src/lexer.cpp:106-116 | input made only of spaces, tabs, carriage returns and newlines yields no tokens |
| LexerProperties.RunStringBody | src/lexer.cpp:51-56 | inside a string literal, quote-free text is appended verbatim, nothing is emitted, and a newline moves only the column |
| LexerProperties.StringLiteralVerbatim | src/lexer.cpp:51-79 | a quoted literal outside a comment emits exactly one STRING_LITERAL token whose text is the characters between the quotes, verbatim, positioned at the closing quote |
| LexerProperties.RunAppend | src/lexer.cpp:40 | scanning `a + b` equals scanning `a` and then `b` from where it stopped |
| LexerProperties.StepWithoutQuote | src/lexer.cpp:76-79 | only a `"` can move the scanner into a string literal |
| LexerProperties.RunPositionWithoutQuotes | src/lexer.cpp:42-135 | on quote-free input (no `"` anywhere, comments included), line and column follow an independent reference: one line per newline, column reset to 1 after it, one column per other character |
| LexerProperties.EmittedAtDelimiter | src/lexer.cpp:27-135 | every emitted token is closed by a delimiter of the input: just before that delimiter exactly as many tokens had been emitted as precede it, the accumulator was the token itself, and the delimiter's step is the one that emits it, so it carries its closing delimiter's line and column, not its first character's |
| LexerProperties.StepIntoString | src/lexer.cpp:51-79 | a step that ends inside a string literal either added a non-quote character, raw, to a literal already open, or was a quote read outside literals that opened an empty one |
| LexerProperties.RunStringText | src/lexer.cpp:51-79 | a string literal still open after some input holds exactly the characters after one of the input's quotes |
| LexerProperties.LexStringTokensQuoted | src/lexer.cpp:35-138 | every STRING_LITERAL token of a scan is exactly the text between two quotes of the input |
| LexerProperties.LexPositionsWithoutQuotes | src/lexer.cpp:35-137 | on quote-free input, each token is the accumulator as it stood just before its closing delimiter, and its line and column are that delimiter's, counted from line 1, column 1 |
| LexerProperties.StepSameShape | src/lexer.cpp:42-133 | the per-character rules never depend on the position |
| LexerProperties.RunSameShape | src/lexer.cpp:40-136 | two scans that differ only in positions emit tokens with the same categories and texts |
| LexerProperties.LexInsertBlank | src/lexer.cpp:106-110 | inserting a space, tab or CR where the accumulator is empty changes neither the number of tokens nor any token's category or text |
| LexerProperties.OpenQuote | src/lexer.cpp:76-79 | an opening quote outside a comment closes the accumulator and starts an empty string literal one column further right |
| LexerProperties.CloseQuote | src/lexer.cpp:52-53 | a closing quote emits the string literal as it stands and leaves an empty WHITESPACE accumulator |
| LexerProperties.BlankOnEmpty | src/lexer.cpp:106-110 | a space, tab or carriage return on an empty accumulator emits nothing and only moves the column |
| LexerProperties.EmittedByFirst | src/lexer.cpp:27-33 | a token emitted by the first character of a run is the accumulator as it stood before, and that character is a delimiter |
| LexerProperties.RunPrefixCons | src/lexer.cpp:40 | scanning a prefix is one step and then scanning the shorter prefix of the rest |
| LexerSegments.UpperAll | src/lexer.cpp:131 | upper-casing a string keeps its length, upper-cases each character in place, and leaves no lower-case letter |
| LexerSegments.StepWordChar | src/lexer.cpp:59-131 | a digit or a character of the default branch appends its upper-cased form, moves one column, and turns an empty or integer accumulator into an integer (digit) or identifier (anything else) |
| LexerSegments.StepBlank | src/lexer.cpp:106-110 | a space, tab or carriage return outside comments and strings closes the accumulator and moves one column |
| LexerSegments.RunSnoc | src/lexer.cpp:40 | scanning one more character is one more step from where the scan stopped |
| LexerSegments.RunChain | src/lexer.cpp:40 | two consecutive runs compose into a run of the concatenated input |
| LexerSegments.RunWord | src/lexer.cpp:59-131 | outside comments and strings, a word emits nothing, appends its upper-cased characters, and leaves an integer while only digits arrived and an identifier once another character did |
| LexerSegments.RunThenBlank | src/lexer.cpp:106-110 | after any input that leaves a significant non-string accumulator, a blank emits exactly that accumulator and empties it |
| LexerSegments.RunWordThenBlank | src/lexer.cpp:59-131 | from an empty accumulator, a word then a blank emits exactly one token: INTEGER_LITERAL for digits only, IDENTIFIER otherwise, with the upper-cased word as text and the blank's position |
| LexerSegments.LexWord | src/lexer.cpp:35-138 | a word then a blank scans to that single token, at line 1 and the column of the blank |
| LexerSegments.DigitsAreUnchanged | src/lexer.cpp:131 | digits are words that upper-casing leaves alone |
| LexerSegments.StepDotAfterInteger | src/lexer.cpp:80-84 | a dot on an integer makes it a FLOAT_LITERAL and keeps the dot in the text |
| LexerSegments.RunDigits | src/lexer.cpp:59-75 | digits from an empty accumulator make an INTEGER_LITERAL with the digits as text |
| LexerSegments.RunFraction | src/lexer.cpp:72-74 | digits after a float's dot are appended unchanged and keep the float category |
| LexerSegments.RunIntegerDot | src/lexer.cpp:59-84 | digits and a dot from an empty accumulator make a FLOAT_LITERAL whose text ends in the dot |
| LexerSegments.RunFloat | src/lexer.cpp:59-87 | from an empty accumulator, digits, a dot and digits make one FLOAT_LITERAL accumulator whose text is the input verbatim, emitting nothing |
| LexerSegments.RunFloatThenBlank | src/lexer.cpp:80-110 | from an empty accumulator, digits, a dot, digits and a blank emit exactly one FLOAT_LITERAL whose text keeps the dot |
| LexerSegments.RunCommentBody | src/lexer.cpp:42-50 | inside a comment every character but newline is appended and nothing is emitted |
| LexerSegments.StepFirstSlash | src/lexer.cpp:119-120 | a slash on an empty accumulator sets SLASH |
| LexerSegments.StepSecondSlash | src/lexer.cpp:121-122 | a slash after SLASH turns the accumulator into a comment |
| LexerSegments.OpenComment | src/lexer.cpp:118-124 | two slashes on an empty accumulator open a comment without emitting anything |
| LexerSegments.CloseComment | src/lexer.cpp:43-47 | a newline in a comment discards it, emits nothing, and moves to column 1 of the next line |
| LexerSegments.LineComment | src/lexer.cpp:42-124 | a whole line comment from an empty accumulator emits nothing and continues at column 1 of the next line |
| LexerSegments.StepOperator | src/lexer.cpp:88-105 | an operator character outside comments, strings and integers overwrites the category, keeps the text and moves one column |
| LexerSegments.RunOperators | src/lexer.cpp:80-105 | outside comments, strings and integers, a run of operator characters closes nothing: only the last operator's category survives and the text is unchanged |
| LexerSegments.RunOperatorsThenBlank | src/lexer.cpp:88-110 | from an empty accumulator, operators then a blank emit one token of the last operator's category with empty text |
| LexerSegments.RunThenLineComment | src/lexer.cpp:42-124 | after input that leaves an empty WHITESPACE accumulator, a line comment emits nothing and moves to column 1 of the next line |
| LexerSegments.WordThenLineComment | src/lexer.cpp:42-131 | from an empty accumulator, a word, a blank and a line comment emit only the word and continue at column 1 of the next line |
| LexerSegments.WordsAroundLineComment | src/lexer.cpp:42-131 | from an empty accumulator, two words around a line comment emit exactly the two words, the second on the next line |
| LexerSegments.QuotedThenBlank | src/lexer.cpp:51-110 | from an empty accumulator, a quoted literal and a blank emit the literal verbatim, whatever it contains, and stay on the same line |
| LexerExamples.DigitLedIdentifier | src/lexer.cpp:126-131 | `2dup ` yields one IDENTIFIER `2DUP` at column 5 |
| LexerExamples.DigitsWithDot | src/lexer.cpp:80-87 | `3.14 ` yields one FLOAT_LITERAL `3.14` |
| LexerExamples.OperatorOverwrite | src/lexer.cpp:88-105 | `+- ` yields one MINUS token with empty text |
| LexerExamples.CommentSkipped | src/lexer.cpp:42-50 | `FOO // bar\nBAZ ` yields IDENTIFIERs `FOO` (line 1) and `BAZ` (line 2, column 4) |
| LexerExamples.StringLiteralKeepsCase | src/lexer.cpp:51-56 | `"HELLO world"` yields one STRING_LITERAL with text `HELLO world`, case and space kept |
| LexerExamples.NewlineInsideString | src/lexer.cpp:51-56 | a newline inside a string literal stays in its text, and after the literal the scanner is still on line 1 |
| LexerExamples.SlashWithTextOpensComment | src/lexer.cpp:121-131 | after `/x/` the accumulator is a COMMENT with text `X` at column 4: the text after one slash does not stop the next slash from opening a comment |
| LexerExamples.NoFlushAtEnd | src/lexer.cpp:135-137 | `FOO` without a trailing delimiter yields no tokens |

## Left out

- `lex_file` (src/lexer.cpp:140-154): opening the file, the error message and
  `std::exit(1)` are I/O and process control. The input is a `string` given
  as a parameter, and each character is consumed exactly once.
- The `std::cout.put(ch)` echo and the banner (src/lexer.cpp:41, 141): output
  side effects that do not affect the result.
- `to_string(token const&)` (src/lexer.cpp:162-164): display formatting only.
- `lexer.hpp` is not part of this model. The `bimap` template and the
  `token` struct's default field values are there. The model assumes the
  accumulator starts as WHITESPACE with empty text, at line 1 and column 1.
- TokenTypes.ToTokenType: the `bimap` lookup on an unknown name is not
  visible, so the model returns `None` instead of inventing error behaviour.
- Lexer.ToUpper: `toupper` is locale dependent; only ASCII `a`-`z` to
  `A`-`Z` is modelled.
- Lexer.Step: line and column are unbounded naturals, so overflow of the
  C++ integer fields is not modelled. Their width is declared in `lexer.hpp`.
- Lexer.Step: each `char` of the input stands for one byte read by
  `in_stream.get`. A multi-byte UTF-8 character is several bytes, and so
  several columns and several `toupper` calls, in the code, but one `char`
  here; `toupper` on a negative `char` is undefined behaviour in C++. The
  model is exact only for input whose characters are single bytes below 128.

=== FILE: lexer.dfy ===
/**
 * The single-pass scanner. The scanner state is the output vector together
 * with the in-progress token (`cur_token` in the C++); `Step` is one iteration
 * of the character loop and `Run` folds it over the input.
 */
module Lexer {
  import opened TokenTypes

  /** One token: its category, accumulated text and origin. */
  datatype Token = Token(
    tokenType: TokenType,
    text: string,
    line: nat,
    column: nat,
    filePath: string)

  /** Scanner state: tokens emitted so far and the in-progress accumulator. */
  datatype Scan = Scan(tokens: seq<Token>, cur: Token)

  /** The accumulator at the start of a scan: no category yet, empty text,
      line 1, column 1. */
  function InitialToken(filePath: string): Token {
    Token(Whitespace, "", 1, 1, filePath)
  }

  function InitialScan(filePath: string): Scan {
    Scan([], InitialToken(filePath))
  }

  /** Categories that are kept when a token is closed. */
  predicate IsSignificant(t: TokenType) {
    t != Whitespace && t != Comment
  }

  /** A space, tab or carriage return: it closes the accumulator and
      stays on the same line. */
  predicate IsSpace(ch: char) {
    ch == ' ' || ch == '\t' || ch == '\r'
  }

  /** The characters on which the scanner closes the current token. */
  predicate IsDelimiter(ch: char) {
    IsSpace(ch) || ch == '\n' || ch == '"'
  }

  predicate IsDigit(ch: char) {
    '0' <= ch <= '9'
  }

  predicate IsLower(ch: char) {
    'a' <= ch <= 'z'
  }

  predicate NoLower(s: string) {
    forall i :: 0 <= i < |s| ==> !IsLower(s[i])
  }

  /** ASCII upper-casing. */
  function ToUpper(ch: char): (u: char)
    ensures !IsLower(u)
    ensures !IsLower(ch) ==> u == ch
    ensures IsLower(ch) ==> u as int - 'A' as int == ch as int - 'a' as int
  {
    if IsLower(ch) then (ch as int - 'a' as int + 'A' as int) as char else ch
  }

  /** Closes the accumulator: keeps it when its category is significant, then
      resets it to an empty `Whitespace` token at the same position. */
  function EndToken(s: Scan): (r: Scan)
    ensures |s.tokens| <= |r.tokens| <= |s.tokens| + 1
    ensures r.tokens[..|s.tokens|] == s.tokens
    ensures |r.tokens| == |s.tokens| + 1 <==> IsSignificant(s.cur.tokenType)
    ensures |r.tokens| == |s.tokens| + 1 ==> r.tokens[|s.tokens|] == s.cur
    ensures r.cur.tokenType == Whitespace && r.cur.text == ""
    ensures r.cur.line == s.cur.line && r.cur.column == s.cur.column
    ensures r.cur.filePath == s.cur.filePath
  {
    var tokens := if IsSignificant(s.cur.tokenType) then s.tokens + [s.cur] else s.tokens;
    Scan(tokens, s.cur.(tokenType := Whitespace, text := ""))
  }

  /** Appends `ch` verbatim to the accumulator's text. */
  function Append(s: Scan, ch: char): Scan {
    Scan(s.tokens, s.cur.(text := s.cur.text + [ch]))
  }

  /** Overwrites the accumulator's category without closing it. */
  function SetType(s: Scan, t: TokenType): Scan {
    Scan(s.tokens, s.cur.(tokenType := t))
  }

  /** The character switch used outside comments and string literals. A
      delimiter closes the accumulator (emitting it when significant) and
      leaves it empty, in the STRING_LITERAL state after a quote and in the
      WHITESPACE state otherwise; any other character emits nothing and at
      most appends its upper-cased self to the text. The newline case moves
      to the next line itself; every other case leaves the position alone. */
  function Dispatch(s: Scan, ch: char): (r: Scan)
    ensures |s.tokens| <= |r.tokens| <= |s.tokens| + 1
    ensures r.tokens[..|s.tokens|] == s.tokens
    ensures |r.tokens| == |s.tokens| + 1 <==> IsDelimiter(ch) && IsSignificant(s.cur.tokenType)
    ensures |r.tokens| == |s.tokens| + 1 ==> r.tokens[|s.tokens|] == s.cur
    ensures IsDelimiter(ch) ==> r.cur.text == ""
                                && r.cur.tokenType == (if ch == '"' then StringLiteral else Whitespace)
    ensures !IsDelimiter(ch) ==> r.cur.text == s.cur.text || r.cur.text == s.cur.text + [ToUpper(ch)]
    ensures ch == '\n' ==> r.cur.line == s.cur.line + 1 && r.cur.column == 1
    ensures ch != '\n' ==> r.cur.line == s.cur.line && r.cur.column == s.cur.column
    ensures r.cur.filePath == s.cur.filePath
  {
    var cur := s.cur;
    if IsDigit(ch) then
      var s' := Append(s, ch);
      if cur.tokenType == Whitespace then SetType(s', IntegerLiteral) else s'
    else if ch == '"' then
      SetType(EndToken(s), StringLiteral)
    else if ch == '.' then
      if cur.tokenType == IntegerLiteral then SetType(Append(s, ch), FloatLiteral)
      else SetType(s, Dot)
    else if ch == ',' then SetType(s, Comma)
    else if ch == '+' then SetType(s, Plus)
    else if ch == '-' then SetType(s, Minus)
    else if ch == '<' then SetType(s, LessThan)
    else if ch == '>' then SetType(s, GreaterThan)
    else if ch == '=' then SetType(s, Equal)
    else if IsSpace(ch) then EndToken(s)
    else if ch == '\n' then NextLine(EndToken(s))
    else if ch == '/' then
      if cur.tokenType == Whitespace then SetType(s, Slash)
      else if cur.tokenType == Slash then SetType(s, Comment)
      else s
    else
      // any other character, which lets an identifier start with digits
      var s' := Scan(s.tokens, cur.(text := cur.text + [ToUpper(ch)]));
      if cur.tokenType == Whitespace || cur.tokenType == IntegerLiteral
      then SetType(s', Identifier) else s'
  }

  function NextLine(s: Scan): Scan {
    Scan(s.tokens, s.cur.(line := s.cur.line + 1, column := 1))
  }

  function NextColumn(s: Scan): Scan {
    Scan(s.tokens, s.cur.(column := s.cur.column + 1))
  }

  /** True when `ch` ends a line of the scan: a newline that is not inside a
      string literal. */
  predicate BreaksLine(cur: Token, ch: char) {
    ch == '\n' && cur.tokenType != StringLiteral
  }

  /** True when consuming `ch` in category `t` closes a significant token:
      a `"` ends a string literal; outside comments and string literals a
      space, tab, carriage return, newline or `"` closes the token. */
  predicate Emits(t: TokenType, ch: char) {
    if t == StringLiteral then ch == '"'
    else IsSignificant(t) && IsDelimiter(ch)
  }

  /** One iteration of the scanning loop: consumes `ch`. At most one token is
      emitted, exactly when `Emits` holds, and it is the accumulator as it
      stood before `ch`; the position moves to the next line on a newline outside a
      string literal and one column to the right otherwise. */
  function Step(s: Scan, ch: char): (r: Scan)
    ensures |s.tokens| <= |r.tokens| <= |s.tokens| + 1
    ensures r.tokens[..|s.tokens|] == s.tokens
    ensures |r.tokens| == |s.tokens| + 1 <==> Emits(s.cur.tokenType, ch)
    ensures |r.tokens| == |s.tokens| + 1 ==>
              IsDelimiter(ch) && IsSignificant(s.cur.tokenType) && r.tokens[|s.tokens|] == s.cur
    ensures BreaksLine(s.cur, ch) ==> r.cur.line == s.cur.line + 1 && r.cur.column == 1
    ensures !BreaksLine(s.cur, ch) ==> r.cur.line == s.cur.line && r.cur.column == s.cur.column + 1
    ensures r.cur.filePath == s.cur.filePath
  {
    if s.cur.tokenType == Comment then
      if ch == '\n' then NextLine(EndToken(s))
      else NextColumn(Append(s, ch))
    else if s.cur.tokenType == StringLiteral then
      if ch == '"' then NextColumn(EndToken(s))
      else NextColumn(Append(s, ch))
    else if ch == '\n' then Dispatch(s, ch)
    else NextColumn(Dispatch(s, ch))
  }

  /** Consumes all of `input`, one `Step` per character. Tokens are only ever
      appended; the accumulator still pending at the end is not flushed. */
  function Run(s: Scan, input: string): (r: Scan)
    ensures |s.tokens| <= |r.tokens|
    ensures r.tokens[..|s.tokens|] == s.tokens
    ensures r.cur.filePath == s.cur.filePath
    decreases |input|
  {
    if |input| == 0 then s
    else Run(Step(s, input[0]), input[1..])
  }

  /** Every token a run appends is significant and carries the file path of
      the scan. */
  lemma {:induction false} RunEmitsSignificant(s: Scan, input: string)
    ensures forall k :: |s.tokens| <= k < |Run(s, input).tokens| ==>
              IsSignificant(Run(s, input).tokens[k].tokenType)
              && Run(s, input).tokens[k].filePath == s.cur.filePath
    decreases |input|
  {
    if |input| > 0 {
      var s' := Step(s, input[0]);
      var r := Run(s', input[1..]);
      assert Run(s, input) == r;
      RunEmitsSignificant(s', input[1..]);
      forall k | |s.tokens| <= k < |r.tokens|
        ensures IsSignificant(r.tokens[k].tokenType) && r.tokens[k].filePath == s.cur.filePath
      {
        if k < |s'.tokens| {
          assert r.tokens[k] == r.tokens[..|s'.tokens|][k] == s'.tokens[k] == s.cur;
        }
      }
    }
  }

  /** The tokens of `input` read from `filePath`: none is WHITESPACE or
      COMMENT, and each carries `filePath`. */
  function Lex(filePath: string, input: string): (r: seq<Token>)
    ensures forall k :: 0 <= k < |r| ==> IsSignificant(r[k].tokenType) && r[k].filePath == filePath
  {
    RunEmitsSignificant(InitialScan(filePath), input);
    Run(InitialScan(filePath), input).tokens
  }

  /** The character loop, written as a loop over the input. */
  method LexStream(filePath: string, input: string) returns (tokens: seq<Token>)
    ensures tokens == Lex(filePath, input)
  {
    var s := InitialScan(filePath);
    var i := 0;
    while i < |input|
      invariant 0 <= i <= |input|
      invariant Run(s, input[i..]) == Run(InitialScan(filePath), input)
    {
      assert input[i..][1..] == input[i + 1..];
      s := Step(s, input[i]);
      i := i + 1;
    }
    tokens := s.tokens;
  }
}

=== FILE: lexer_examples.dfy ===
/**
 * Worked inputs for the scanner, each showing one of its behaviours,
 * including the quirks that the scanner keeps on purpose. Each input is a
 * parameter fixed by the precondition and is cut into the segments that
 * `LexerSegments` describes.
 */
module LexerExamples {
  import opened TokenTypes
  import opened Lexer
  import LexerProperties
  import LexerSegments

  lemma DigitLedPieces(input: string)
    requires input == "2dup "
    ensures input == "2dup" + [' ']
    ensures LexerSegments.IsWord("2dup")
    ensures LexerSegments.WordKind("2dup") == Identifier
    ensures LexerSegments.UpperAll("2dup") == "2DUP"
  {
    assert !IsDigit("2dup"[1]);
  }

  /** A digit-led word is one identifier, upper-cased. */
  lemma DigitLedIdentifier(input: string)
    requires input == "2dup "
    ensures Lex("f", input) == [Token(Identifier, "2DUP", 1, 5, "f")]
  {
    DigitLedPieces(input);
    LexerSegments.LexWord("f", "2dup", ' ');
  }

  /** A dot after digits turns the integer into a float and is kept. */
  lemma DigitsWithDot(input: string)
    requires input == "3.14 "
    ensures Lex("f", input) == [Token(FloatLiteral, "3.14", 1, 5, "f")]
  {
    var whole, frac := "3", "14";
    assert input == whole + ['.'] + frac + [' '];
    assert LexerSegments.AllDigits(frac) by {
      assert IsDigit(frac[0]) && IsDigit(frac[1]);
    }
    LexerSegments.RunFloatThenBlank(InitialScan("f"), whole, frac, ' ');
    assert whole + ['.'] + frac == "3.14";
  }

  /** Adjacent operators overwrite the category without closing the token:
      `+-` is a single MINUS token with empty text. */
  lemma OperatorOverwrite(input: string)
    requires input == "+- "
    ensures Lex("f", input) == [Token(Minus, "", 1, 3, "f")]
  {
    var ops := "+-";
    assert input == ops + [' '];
    LexerSegments.RunOperatorsThenBlank(InitialScan("f"), ops, ' ');
  }

  /** An upper-case word is an identifier that upper-casing leaves alone. */
  lemma UpperCaseWord(w: string)
    requires |w| > 0 && forall i :: 0 <= i < |w| ==> 'A' <= w[i] <= 'Z'
    ensures LexerSegments.IsWord(w)
    ensures LexerSegments.WordKind(w) == Identifier
    ensures LexerSegments.UpperAll(w) == w
  {
    assert !IsDigit(w[0]);
  }

  lemma CommentSkippedPieces(input: string)
    requires input == "FOO // bar\nBAZ "
    ensures input == ("FOO" + [' ']) + ("//" + " bar" + "\n") + ("BAZ" + [' '])
  {
  }

  /** A line comment is dropped, and the word after it is on line 2. */
  lemma CommentSkipped(input: string)
    requires input == "FOO // bar\nBAZ "
    ensures Lex("f", input)
            == [Token(Identifier, "FOO", 1, 4, "f"), Token(Identifier, "BAZ", 2, 4, "f")]
  {
    var w1, body, w2 := "FOO", " bar", "BAZ";
    CommentSkippedPieces(input);
    UpperCaseWord(w1);
    UpperCaseWord(w2);
    LexerSegments.WordsAroundLineComment(InitialScan("f"), w1, body, w2, ' ');
  }

  lemma StringLiteralKeepsCasePieces(input: string)
    requires input == "\"HELLO world\""
    ensures input == ['"'] + "HELLO world" + ['"']
    ensures forall i :: 0 <= i < |"HELLO world"| ==> "HELLO world"[i] != '"'
  {
  }

  /** A string literal keeps its case and its blanks. */
  lemma StringLiteralKeepsCase(input: string)
    requires input == "\"HELLO world\""
    ensures Lex("f", input) == [Token(StringLiteral, "HELLO world", 1, 13, "f")]
  {
    StringLiteralKeepsCasePieces(input);
    LexerProperties.StringLiteralVerbatim(InitialScan("f"), "HELLO world");
  }

  lemma NewlineInsideStringPieces(input: string)
    requires input == "\"a\nb\" "
    ensures input == (['"'] + "a\nb" + ['"']) + [' ']
  {
  }

  /** A newline inside a string literal is kept in its text and does not
      move the scanner to the next line. */
  lemma NewlineInsideString(input: string)
    requires input == "\"a\nb\" "
    ensures Run(InitialScan("f"), input)
            == Scan([Token(StringLiteral, "a\nb", 1, 5, "f")], Token(Whitespace, "", 1, 7, "f"))
  {
    NewlineInsideStringPieces(input);
    LexerSegments.QuotedThenBlank(InitialScan("f"), "a\nb", ' ');
  }

  /** Text after one slash keeps the slash category, so the next slash
      still opens a comment: `/x/` is a comment holding `X`. */
  lemma SlashWithTextOpensComment(input: string)
    requires input == "/x/"
    ensures Run(InitialScan("f"), input).cur == Token(Comment, "X", 1, 4, "f")
  {
    var s0 := InitialScan("f");
    var m1 := Scan([], Token(Slash, "", 1, 2, "f"));
    var m2 := Scan([], Token(Slash, "X", 1, 3, "f"));
    LexerSegments.StepFirstSlash(s0);
    LexerSegments.RunSnoc(s0, [], '/', s0);
    assert Step(m1, 'x') == m2 by {
      assert Dispatch(m1, 'x') == Scan([], Token(Slash, "X", 1, 2, "f"));
    }
    LexerSegments.RunSnoc(s0, ['/'], 'x', m1);
    LexerSegments.StepSecondSlash(m2);
    LexerSegments.RunSnoc(s0, ['/', 'x'], '/', m2);
    assert ['/'] + ['x'] == ['/', 'x'];
    assert ['/', 'x'] + ['/'] == input;
  }

  /** End of input does not flush the pending token. */
  lemma NoFlushAtEnd(input: string)
    requires input == "FOO"
    ensures Lex("f", input) == []
  {
    LexerProperties.LexWithoutDelimiterIsEmpty("f", input);
  }
}

=== FILE: lexer_properties.dfy ===
/**
 * Properties of the scanner: which tokens can come out, how many, what text
 * they carry, and the line and column bookkeeping.
 */
module LexerProperties {
  import opened TokenTypes
  import opened Lexer

  /** Categories that can reach the output: not the two accumulation states,
      and not `Backslash` or `Star`, which no branch of the switch assigns. */
  predicate IsEmittable(t: TokenType) {
    IsSignificant(t) && t != Backslash && t != Star
  }

  /** What every emitted token satisfies. */
  predicate ValidOutput(tok: Token, filePath: string) {
    && IsEmittable(tok.tokenType)
    && (tok.tokenType != StringLiteral ==> NoLower(tok.text))
    && tok.filePath == filePath
  }

  predicate AllValidOutput(tokens: seq<Token>, filePath: string) {
    forall k :: 0 <= k < |tokens| ==> ValidOutput(tokens[k], filePath)
  }

  /** The accumulator invariant: never `Backslash` or `Star`, empty text in
      the `Whitespace` state, and upper-case text outside string literals and
      comments. */
  predicate WellFormed(cur: Token) {
    && cur.tokenType != Backslash
    && cur.tokenType != Star
    && (cur.tokenType == Whitespace ==> cur.text == "")
    && (cur.tokenType != StringLiteral && cur.tokenType != Comment ==> NoLower(cur.text))
  }

  predicate ScanInvariant(s: Scan) {
    WellFormed(s.cur) && AllValidOutput(s.tokens, s.cur.filePath)
  }

  /** A step keeps the accumulator well formed and emits only valid tokens. */
  lemma StepKeepsInvariant(s: Scan, ch: char)
    requires ScanInvariant(s)
    ensures ScanInvariant(Step(s, ch))
  {
    var r := Step(s, ch);
    if s.cur.tokenType != Comment && s.cur.tokenType != StringLiteral && !IsDigit(ch) && !IsDelimiter(ch)
       && ch != '.' && ch != ',' && ch != '+' && ch != '-' && ch != '<' && ch != '>' && ch != '=' && ch != '/'
    {
      assert r.cur.text == s.cur.text + [ToUpper(ch)];
    }
    forall k | 0 <= k < |r.tokens|
      ensures ValidOutput(r.tokens[k], r.cur.filePath)
    {
      if k < |s.tokens| {
        assert r.tokens[k] == r.tokens[..|s.tokens|][k];
      }
    }
  }

  /** Consuming any input keeps the invariant. */
  lemma {:induction false} RunKeepsInvariant(s: Scan, input: string)
    requires ScanInvariant(s)
    ensures ScanInvariant(Run(s, input))
    decreases |input|
  {
    if |input| > 0 {
      StepKeepsInvariant(s, input[0]);
      RunKeepsInvariant(Step(s, input[0]), input[1..]);
    }
  }

  /** Every token of a scan has an emittable category (never WHITESPACE,
      COMMENT, BACKSLASH or STAR), carries the scan's file path, and has no
      lower-case letter unless it is a string literal. */
  lemma LexOutputIsValid(filePath: string, input: string)
    ensures AllValidOutput(Lex(filePath, input), filePath)
  {
    RunKeepsInvariant(InitialScan(filePath), input);
  }

  /** The number of delimiter characters in `input`. */
  function CountDelimiters(input: string): nat {
    if |input| == 0 then 0
    else (if IsDelimiter(input[0]) then 1 else 0) + CountDelimiters(input[1..])
  }

  /** Each delimiter emits at most one token and nothing else emits. */
  lemma {:induction false} RunTokenCount(s: Scan, input: string)
    ensures |Run(s, input).tokens| <= |s.tokens| + CountDelimiters(input)
    decreases |input|
  {
    if |input| > 0 {
      RunTokenCount(Step(s, input[0]), input[1..]);
    }
  }

  lemma LexTokenCount(filePath: string, input: string)
    ensures |Lex(filePath, input)| <= CountDelimiters(input)
  {
    RunTokenCount(InitialScan(filePath), input);
  }

  /** Without a delimiter nothing is emitted; in particular the end of the
      input does not flush a pending token. */
  lemma LexWithoutDelimiterIsEmpty(filePath: string, input: string)
    requires forall i :: 0 <= i < |input| ==> !IsDelimiter(input[i])
    ensures Lex(filePath, input) == []
  {
    NoDelimiterCount(input);
    LexTokenCount(filePath, input);
  }

  lemma {:induction false} NoDelimiterCount(input: string)
    requires forall i :: 0 <= i < |input| ==> !IsDelimiter(input[i])
    ensures CountDelimiters(input) == 0
    decreases |input|
  {
    if |input| > 0 {
      assert !IsDelimiter(input[0]);
      NoDelimiterCount(input[1..]);
    }
  }

  predicate IsBlank(ch: char) {
    IsSpace(ch) || ch == '\n'
  }

  /** From an empty accumulator, blanks emit nothing and leave it empty. */
  lemma {:induction false} RunBlanks(s: Scan, input: string)
    requires s.cur.tokenType == Whitespace
    requires forall i :: 0 <= i < |input| ==> IsBlank(input[i])
    ensures Run(s, input).tokens == s.tokens
    ensures Run(s, input).cur.tokenType == Whitespace
    decreases |input|
  {
    if |input| > 0 {
      var s' := Step(s, input[0]);
      assert s'.cur.tokenType == Whitespace && s'.tokens == s.tokens;
      RunBlanks(s', input[1..]);
    }
  }

  /** Input made only of spaces, tabs, carriage returns and newlines yields
      no tokens. */
  lemma LexBlanksIsEmpty(filePath: string, input: string)
    requires forall i :: 0 <= i < |input| ==> IsBlank(input[i])
    ensures Lex(filePath, input) == []
  {
    RunBlanks(InitialScan(filePath), input);
  }

  /** Inside a string literal every character but `"` is appended verbatim,
      nothing is emitted, and a newline only moves the column. */
  lemma {:induction false} RunStringBody(s: Scan, body: string)
    requires s.cur.tokenType == StringLiteral
    requires forall i :: 0 <= i < |body| ==> body[i] != '"'
    ensures Run(s, body).tokens == s.tokens
    ensures Run(s, body).cur == s.cur.(text := s.cur.text + body, column := s.cur.column + |body|)
    decreases |body|
  {
    if |body| > 0 {
      var s' := Step(s, body[0]);
      assert s'.cur == s.cur.(text := s.cur.text + [body[0]], column := s.cur.column + 1);
      RunStringBody(s', body[1..]);
      assert s.cur.text + [body[0]] + body[1..] == s.cur.text + body;
    }
  }

  /** Running `a` then `b` is running `a + b`. */
  lemma {:induction false} RunAppend(s: Scan, a: string, b: string)
    ensures Run(s, a + b) == Run(Run(s, a), b)
    decreases |a|
  {
    if |a| > 0 {
      assert (a + b)[0] == a[0];
      assert (a + b)[1..] == a[1..] + b;
      RunAppend(Step(s, a[0]), a[1..], b);
    } else {
      assert a + b == b;
    }
  }

  /** An opening quote outside a comment closes the accumulator and starts
      an empty string literal. */
  lemma OpenQuote(s: Scan)
    requires s.cur.tokenType != Comment && s.cur.tokenType != StringLiteral
    ensures Run(s, ['"']) == Scan(EndToken(s).tokens, s.cur.(tokenType := StringLiteral, text := "",
                                                             column := s.cur.column + 1))
  {
    RunCons(s, ['"']);
    assert ['"'][1..] == [];
  }

  /** A closing quote emits the string literal and empties the accumulator. */
  lemma CloseQuote(s: Scan)
    requires s.cur.tokenType == StringLiteral
    ensures Run(s, ['"']) == Scan(s.tokens + [s.cur], s.cur.(tokenType := Whitespace, text := "",
                                                             column := s.cur.column + 1))
  {
    RunCons(s, ['"']);
    assert ['"'][1..] == [];
  }

  /** A string literal outside a comment produces exactly one STRING_LITERAL
      token whose text is the characters between the quotes, verbatim, after
      whatever the opening quote flushed. */
  lemma StringLiteralVerbatim(s: Scan, body: string)
    requires s.cur.tokenType != Comment && s.cur.tokenType != StringLiteral
    requires forall i :: 0 <= i < |body| ==> body[i] != '"'
    ensures Run(s, ['"'] + body + ['"']).tokens
            == EndToken(s).tokens
               + [Token(StringLiteral, body, s.cur.line, s.cur.column + 1 + |body|, s.cur.filePath)]
    ensures Run(s, ['"'] + body + ['"']).cur
            == s.cur.(tokenType := Whitespace, text := "", column := s.cur.column + 2 + |body|)
  {
    var open := Scan(EndToken(s).tokens, s.cur.(tokenType := StringLiteral, text := "", column := s.cur.column + 1));
    OpenQuote(s);
    RunStringBody(open, body);
    assert "" + body == body;
    var mid := Scan(EndToken(s).tokens, s.cur.(tokenType := StringLiteral, text := body,
                                               column := s.cur.column + 1 + |body|));
    assert Run(open, body) == mid;
    CloseQuote(mid);
    RunAppend(s, ['"'], body);
    RunAppend(s, ['"'] + body, ['"']);
  }

  /** Reference line and column bookkeeping for one character: a newline
      moves to column 1 of the next line, every other character one column
      to the right. */
  function Advance(line: nat, column: nat, ch: char): (nat, nat) {
    if ch == '\n' then (line + 1, 1) else (line, column + 1)
  }

  /** `Advance` over a whole input. */
  function Position(line: nat, column: nat, input: string): (p: (nat, nat))
    decreases |input|
  {
    if |input| == 0 then (line, column)
    else
      var next := Advance(line, column, input[0]);
      Position(next.0, next.1, input[1..])
  }

  /** One character of a run. */
  lemma RunCons(s: Scan, input: string)
    requires |input| > 0
    ensures Run(s, input) == Run(Step(s, input[0]), input[1..])
  {
  }

  /** Only a `"` outside a comment opens a string literal, so a quote-free
      step never enters one, and its position moves as `Advance` says. */
  lemma StepWithoutQuote(s: Scan, ch: char)
    requires s.cur.tokenType != StringLiteral && ch != '"'
    ensures Step(s, ch).cur.tokenType != StringLiteral
    ensures (Step(s, ch).cur.line, Step(s, ch).cur.column) == Advance(s.cur.line, s.cur.column, ch)
  {
  }

  /** Outside string literals the scanner's position follows `Position`:
      one line per newline, column reset to 1 after it, and one column per
      other character. */
  lemma {:induction false} RunPositionWithoutQuotes(s: Scan, input: string)
    requires s.cur.tokenType != StringLiteral
    requires forall i :: 0 <= i < |input| ==> input[i] != '"'
    ensures (Run(s, input).cur.line, Run(s, input).cur.column) == Position(s.cur.line, s.cur.column, input)
    ensures Run(s, input).cur.tokenType != StringLiteral
    decreases |input|
  {
    if |input| > 0 {
      var ch, rest := input[0], input[1..];
      var s' := Step(s, ch);
      StepWithoutQuote(s, ch);
      assert forall i :: 0 <= i < |rest| ==> rest[i] == input[i + 1];
      RunPositionWithoutQuotes(s', rest);
      RunCons(s, input);
    }
  }

  /** A token emitted by the first character of a run is the accumulator as
      it stood before it, and that character is a delimiter. */
  lemma EmittedByFirst(s: Scan, input: string, k: nat)
    requires |input| > 0
    requires |s.tokens| <= k < |Step(s, input[0]).tokens|
    ensures IsDelimiter(input[0])
    ensures |Run(s, input[..0]).tokens| == k
    ensures |Run(s, input[..1]).tokens| == k + 1
    ensures Run(s, input).tokens[k] == Run(s, input[..0]).cur
  {
    var s' := Step(s, input[0]);
    assert k == |s.tokens| && s'.tokens[k] == s.cur;
    var r := Run(s', input[1..]);
    assert r.tokens[..|s'.tokens|] == s'.tokens;
    assert r.tokens[k] == s'.tokens[k];
    RunCons(s, input);
    assert Run(s, input[..0]) == s by {
      assert input[..0] == [];
    }
    assert Run(s, input[..1]) == s' by {
      assert input[..1][0] == input[0] && input[..1][1..] == [];
    }
  }

  /** A prefix of length `j + 1` is its first character and then the first
      `j` of the rest. */
  lemma RunPrefixCons(s: Scan, input: string, j: nat)
    requires j < |input|
    ensures Run(s, input[..j + 1]) == Run(Step(s, input[0]), input[1..][..j])
  {
    assert input[..j + 1][0] == input[0];
    assert input[..j + 1][1..] == input[1..][..j];
    RunCons(s, input[..j + 1]);
  }

  /** A closing delimiter found in the rest of the input, at `j`, sits at
      `j + 1` of the whole input. */
  lemma ClosedLater(s: Scan, input: string, k: nat, j: nat)
    requires j + 1 < |input|
    requires IsDelimiter(input[1..][j])
    requires |Run(Step(s, input[0]), input[1..][..j]).tokens| == k
    requires |Run(Step(s, input[0]), input[1..][..j + 1]).tokens| == k + 1
    requires k < |Run(Step(s, input[0]), input[1..]).tokens|
    requires Run(Step(s, input[0]), input[1..]).tokens[k] == Run(Step(s, input[0]), input[1..][..j]).cur
    ensures IsDelimiter(input[j + 1])
    ensures |Run(s, input[..j + 1]).tokens| == k
    ensures |Run(s, input[..j + 2]).tokens| == k + 1
    ensures k < |Run(s, input).tokens| && Run(s, input).tokens[k] == Run(s, input[..j + 1]).cur
  {
    RunPrefixCons(s, input, j);
    RunPrefixCons(s, input, j + 1);
    RunCons(s, input);
  }

  /** Every token emitted while consuming `input` is closed by a delimiter
      of `input`: just before that delimiter exactly `k` tokens had been
      emitted and the accumulator was the token itself, and the delimiter's
      step is the one that emits it. So the token carries
      the line and column of its closing delimiter, not of its first
      character. */
  lemma {:induction false} EmittedAtDelimiter(s: Scan, input: string, k: nat)
    requires |s.tokens| <= k < |Run(s, input).tokens|
    ensures exists i :: 0 <= i < |input| && IsDelimiter(input[i])
              && |Run(s, input[..i]).tokens| == k
              && |Run(s, input[..i + 1]).tokens| == k + 1
              && Run(s, input).tokens[k] == Run(s, input[..i]).cur
    decreases |input|
  {
    if |input| == 0 {
      assert false;
    } else {
      var s' := Step(s, input[0]);
      RunCons(s, input);
      if k < |s'.tokens| {
        EmittedByFirst(s, input, k);
      } else {
        EmittedAtDelimiter(s', input[1..], k);
        var j :| 0 <= j < |input[1..]| && IsDelimiter(input[1..][j])
                 && |Run(s', input[1..][..j]).tokens| == k
                 && |Run(s', input[1..][..j + 1]).tokens| == k + 1
                 && Run(s', input[1..]).tokens[k] == Run(s', input[1..][..j]).cur;
        ClosedLater(s, input, k, j);
      }
    }
  }

  /** For quote-free input, every token is closed by a delimiter of the
      input, and its line and column are that delimiter's, counted from
      line 1, column 1. */
  lemma LexPositionsWithoutQuotes(filePath: string, input: string, k: nat)
    requires forall i :: 0 <= i < |input| ==> input[i] != '"'
    requires k < |Lex(filePath, input)|
    ensures exists i :: 0 <= i < |input| && IsDelimiter(input[i])
              && |Run(InitialScan(filePath), input[..i]).tokens| == k
              && Lex(filePath, input)[k] == Run(InitialScan(filePath), input[..i]).cur
              && (Lex(filePath, input)[k].line, Lex(filePath, input)[k].column) == Position(1, 1, input[..i])
  {
    var s := InitialScan(filePath);
    EmittedAtDelimiter(s, input, k);
    var i :| 0 <= i < |input| && IsDelimiter(input[i])
             && |Run(s, input[..i]).tokens| == k
             && Run(s, input).tokens[k] == Run(s, input[..i]).cur;
    RunPositionWithoutQuotes(s, input[..i]);
  }

  /** A prefix of length `n + 1` is the prefix of length `n` and then one
      more step. */
  lemma RunPrefixSnoc(s: Scan, input: string, n: nat)
    requires n < |input|
    ensures Run(s, input[..n + 1]) == Step(Run(s, input[..n]), input[n])
  {
    var m := Run(s, input[..n]);
    assert input[..n + 1] == input[..n] + [input[n]];
    RunAppend(s, input[..n], [input[n]]);
    RunCons(m, [input[n]]);
    assert [input[n]][1..] == [];
  }

  /** A step that ends inside a string literal either added a non-quote
      character to a literal already open, or was a quote read outside
      comments and literals that opened an empty one. */
  lemma StepIntoString(s: Scan, ch: char)
    requires Step(s, ch).cur.tokenType == StringLiteral
    ensures || (s.cur.tokenType == StringLiteral && ch != '"' && Step(s, ch).cur.text == s.cur.text + [ch])
            || (ch == '"' && s.cur.tokenType != StringLiteral && Step(s, ch).cur.text == "")
  {
  }

  /** The accumulator, if it is an open string literal, holds exactly the
      characters of `consumed` after one of its quotes. */
  predicate OpenedIn(cur: Token, consumed: string) {
    cur.tokenType == StringLiteral ==>
      exists i :: 0 <= i < |consumed| && consumed[i] == '"' && cur.text == consumed[i + 1..]
  }

  /** One more character keeps `OpenedIn` for the input consumed so far. */
  lemma StepOpenedIn(m: Scan, consumed: string, ch: char)
    requires OpenedIn(m.cur, consumed)
    ensures OpenedIn(Step(m, ch).cur, consumed + [ch])
  {
    var next := consumed + [ch];
    if Step(m, ch).cur.tokenType == StringLiteral {
      StepIntoString(m, ch);
      if ch == '"' && m.cur.tokenType != StringLiteral {
        assert next[|consumed|] == '"' && next[|consumed| + 1..] == [];
      } else {
        var i :| 0 <= i < |consumed| && consumed[i] == '"' && m.cur.text == consumed[i + 1..];
        assert next[i] == '"' && next[i + 1..] == consumed[i + 1..] + [ch];
      }
    }
  }

  /** A string literal still open after `input` holds exactly the
      characters of `input` after the quote that opened it. */
  lemma {:induction false} RunStringText(s: Scan, input: string)
    requires s.cur.tokenType != StringLiteral
    ensures Run(s, input).cur.tokenType == StringLiteral ==>
              exists i :: 0 <= i < |input| && input[i] == '"' && Run(s, input).cur.text == input[i + 1..]
    decreases |input|
  {
    if |input| > 0 {
      var n := |input| - 1;
      RunStringText(s, input[..n]);
      assert OpenedIn(Run(s, input[..n]).cur, input[..n]);
      StepOpenedIn(Run(s, input[..n]), input[..n], input[n]);
      RunPrefixSnoc(s, input, n);
      assert input[..n] + [input[n]] == input[..n + 1] == input;
      assert OpenedIn(Run(s, input).cur, input);
    }
  }

  /** Every STRING_LITERAL token of a scan is exactly the text between two
      quotes of the input. */
  lemma LexStringTokensQuoted(filePath: string, input: string, k: nat)
    requires k < |Lex(filePath, input)| && Lex(filePath, input)[k].tokenType == StringLiteral
    ensures exists i, j :: 0 <= i < j < |input| && input[i] == '"' && input[j] == '"'
              && Lex(filePath, input)[k].text == input[i + 1..j]
  {
    var s := InitialScan(filePath);
    EmittedAtDelimiter(s, input, k);
    var j :| 0 <= j < |input| && IsDelimiter(input[j])
             && |Run(s, input[..j]).tokens| == k
             && |Run(s, input[..j + 1]).tokens| == k + 1
             && Run(s, input).tokens[k] == Run(s, input[..j]).cur;
    var m := Run(s, input[..j]);
    RunPrefixSnoc(s, input, j);
    assert Emits(m.cur.tokenType, input[j]);
    RunStringText(s, input[..j]);
    var i :| 0 <= i < |input[..j]| && input[..j][i] == '"' && m.cur.text == input[..j][i + 1..];
    assert input[..j][i + 1..] == input[i + 1..j];
  }

  /** Two token sequences that agree on everything but positions. */
  predicate SameShape(ts: seq<Token>, us: seq<Token>) {
    && |ts| == |us|
    && forall k :: 0 <= k < |ts| ==> ts[k].tokenType == us[k].tokenType && ts[k].text == us[k].text
  }

  /** Two scanner states that differ at most in positions. */
  predicate SameScanShape(s: Scan, t: Scan) {
    && SameShape(s.tokens, t.tokens)
    && s.cur.tokenType == t.cur.tokenType
    && s.cur.text == t.cur.text
  }

  /** Two accumulators that differ at most in positions. */
  predicate SameCurShape(s: Scan, t: Scan) {
    s.cur.tokenType == t.cur.tokenType && s.cur.text == t.cur.text
  }

  /** The switch never looks at the position. */
  lemma DispatchSameShape(s: Scan, t: Scan, ch: char)
    requires SameCurShape(s, t)
    ensures SameCurShape(Dispatch(s, ch), Dispatch(t, ch))
  {
    if IsDigit(ch) || ch == '"' || ch == '.' {
    } else if ch == ',' || ch == '+' || ch == '-' || ch == '<' || ch == '>' || ch == '=' {
    } else if IsBlank(ch) || ch == '/' {
    } else {
      assert Dispatch(s, ch).cur.text == s.cur.text + [ToUpper(ch)];
      assert Dispatch(t, ch).cur.text == t.cur.text + [ToUpper(ch)];
    }
  }

  /** A step never looks at the position, so it keeps states alike. */
  lemma StepSameShape(s: Scan, t: Scan, ch: char)
    requires SameScanShape(s, t)
    ensures SameScanShape(Step(s, ch), Step(t, ch))
  {
    var s', t' := Step(s, ch), Step(t, ch);
    if s.cur.tokenType != Comment && s.cur.tokenType != StringLiteral {
      DispatchSameShape(s, t, ch);
    }
    assert SameCurShape(s', t');
    forall k | 0 <= k < |s'.tokens|
      ensures s'.tokens[k].tokenType == t'.tokens[k].tokenType && s'.tokens[k].text == t'.tokens[k].text
    {
      if k < |s.tokens| {
        assert s'.tokens[k] == s'.tokens[..|s.tokens|][k];
        assert t'.tokens[k] == t'.tokens[..|t.tokens|][k];
      }
    }
  }

  lemma {:induction false} RunSameShape(s: Scan, t: Scan, input: string)
    requires SameScanShape(s, t)
    ensures SameScanShape(Run(s, input), Run(t, input))
    decreases |input|
  {
    if |input| > 0 {
      StepSameShape(s, t, input[0]);
      RunSameShape(Step(s, input[0]), Step(t, input[0]), input[1..]);
    }
  }

  /** A space, tab or carriage return on an empty accumulator only moves
      the column. */
  lemma BlankOnEmpty(m: Scan, c: char)
    requires IsSpace(c)
    requires m.cur.tokenType == Whitespace && m.cur.text == ""
    ensures Run(m, [c]) == Scan(m.tokens, m.cur.(column := m.cur.column + 1))
  {
    assert Dispatch(m, c) == EndToken(m) == m;
    RunCons(m, [c]);
    assert [c][1..] == [];
  }

  /** Inserting a space, tab or carriage return where the accumulator is
      empty (at the start, or after a blank outside a string literal or
      comment) changes neither the number of tokens nor any token's category
      or text; only positions move. */
  lemma LexInsertBlank(filePath: string, a: string, c: char, b: string)
    requires IsSpace(c)
    requires Run(InitialScan(filePath), a).cur.tokenType == Whitespace
    ensures SameShape(Lex(filePath, a + [c] + b), Lex(filePath, a + b))
  {
    var s := InitialScan(filePath);
    var m := Run(s, a);
    var m' := Scan(m.tokens, m.cur.(column := m.cur.column + 1));
    RunKeepsInvariant(s, a);
    BlankOnEmpty(m, c);
    assert SameScanShape(m', m);
    RunAppend(s, a, [c]);
    RunAppend(s, a + [c], b);
    RunAppend(s, a, b);
    RunSameShape(m', m, b);
  }
}

=== FILE: lexer_segments.dfy ===
/**
 * What the scanner does with whole segments of input: words (the digit and
 * default branches of the switch), numbers with a fractional part, and line
 * comments.
 */
module LexerSegments {
  import opened TokenTypes
  import opened Lexer
  import opened LexerProperties

  /** Characters that the switch appends to the text: digits, and everything
      the default branch handles. */
  predicate IsWordChar(ch: char) {
    && !IsDelimiter(ch)
    && ch != '.' && ch != ',' && ch != '+' && ch != '-'
    && ch != '<' && ch != '>' && ch != '=' && ch != '/'
  }

  predicate IsWord(w: string) {
    forall i :: 0 <= i < |w| ==> IsWordChar(w[i])
  }

  predicate AllDigits(w: string) {
    forall i :: 0 <= i < |w| ==> IsDigit(w[i])
  }

  /** ASCII upper-casing of a whole string. */
  function UpperAll(w: string): (u: string)
    ensures |u| == |w|
    ensures forall i :: 0 <= i < |w| ==> u[i] == ToUpper(w[i])
    ensures NoLower(u)
  {
    if |w| == 0 then [] else [ToUpper(w[0])] + UpperAll(w[1..])
  }

  /** The category of a word read from an empty accumulator: digits only
      make an integer, anything else an identifier. */
  function WordKind(w: string): TokenType {
    if AllDigits(w) then IntegerLiteral else Identifier
  }

  /** The category a word leaves behind, starting from category `t`: an empty
      or integer accumulator takes the word's own kind, so it stays an
      integer while only digits arrive and becomes an identifier at the first
      other character; any other category stays. */
  function WordType(t: TokenType, w: string): TokenType {
    if |w| == 0 then t
    else if t == Whitespace || t == IntegerLiteral then WordKind(w)
    else t
  }

  lemma StepWordChar(s: Scan, ch: char)
    requires s.cur.tokenType != Comment && s.cur.tokenType != StringLiteral
    requires IsWordChar(ch)
    ensures Step(s, ch) == Scan(s.tokens, s.cur.(tokenType := WordType(s.cur.tokenType, [ch]),
                                                 text := s.cur.text + [ToUpper(ch)],
                                                 column := s.cur.column + 1))
  {
    assert AllDigits([ch]) <==> IsDigit(ch) by {
      assert [ch][0] == ch;
    }
  }

  /** `WordType` one character at a time. */
  lemma WordTypeCons(t: TokenType, w: string)
    requires |w| > 0
    ensures WordType(WordType(t, [w[0]]), w[1..]) == WordType(t, w)
  {
    var ch, rest := w[0], w[1..];
    assert [ch][0] == ch;
    assert AllDigits(w) <==> IsDigit(ch) && AllDigits(rest) by {
      if IsDigit(ch) && AllDigits(rest) {
        forall i | 0 <= i < |w| ensures IsDigit(w[i]) {
          if i > 0 {
            assert w[i] == rest[i - 1];
          }
        }
      }
    }
  }

  lemma WordTail(w: string)
    requires |w| > 0 && IsWord(w)
    ensures IsWordChar(w[0]) && IsWord(w[1..])
  {
    forall i | 0 <= i < |w[1..]| ensures IsWordChar(w[1..][i]) {
      assert w[1..][i] == w[i + 1];
    }
  }

  lemma UpperAllCons(prefix: string, w: string)
    requires |w| > 0
    ensures prefix + [ToUpper(w[0])] + UpperAll(w[1..]) == prefix + UpperAll(w)
  {
  }

  /** A space, tab or carriage return outside comments and string literals
      closes the accumulator and moves one column right. */
  lemma StepBlank(s: Scan, c: char)
    requires s.cur.tokenType != Comment && s.cur.tokenType != StringLiteral
    requires IsSpace(c)
    ensures Step(s, c) == NextColumn(EndToken(s))
  {
  }

  /** Scanning one more character is one more step. */
  lemma RunSnoc(s: Scan, a: string, ch: char, m: Scan)
    requires Run(s, a) == m
    ensures Run(s, a + [ch]) == Step(m, ch)
  {
    RunCons(m, [ch]);
    assert [ch][1..] == [];
    RunAppend(s, a, [ch]);
  }

  /** Scanning `a` then `b` chains the two runs. */
  lemma RunChain(s: Scan, a: string, b: string, m1: Scan, m2: Scan)
    requires Run(s, a) == m1 && Run(m1, b) == m2
    ensures Run(s, a + b) == m2
  {
    RunAppend(s, a, b);
  }

  /** A word outside comments and string literals emits nothing and appends
      its upper-cased characters to the accumulator. */
  lemma {:induction false} RunWord(s: Scan, w: string)
    requires s.cur.tokenType != Comment && s.cur.tokenType != StringLiteral
    requires IsWord(w)
    ensures Run(s, w) == Scan(s.tokens, s.cur.(tokenType := WordType(s.cur.tokenType, w),
                                               text := s.cur.text + UpperAll(w),
                                               column := s.cur.column + |w|))
    decreases |w|
  {
    if |w| > 0 {
      WordTail(w);
      StepWordChar(s, w[0]);
      var s' := Scan(s.tokens, s.cur.(tokenType := WordType(s.cur.tokenType, [w[0]]),
                                      text := s.cur.text + [ToUpper(w[0])],
                                      column := s.cur.column + 1));
      RunWord(s', w[1..]);
      RunCons(s, w);
      WordTypeCons(s.cur.tokenType, w);
      UpperAllCons(s.cur.text, w);
    }
  }

  /** Input that leaves a significant accumulator outside comments and
      string literals, followed by a space, tab or carriage return: the blank
      emits the accumulator and empties it, one column further right. */
  lemma RunThenBlank(s: Scan, a: string, c: char, m: Scan)
    requires Run(s, a) == m
    requires IsSignificant(m.cur.tokenType) && m.cur.tokenType != StringLiteral
    requires IsSpace(c)
    ensures Run(s, a + [c])
            == Scan(m.tokens + [m.cur], m.cur.(tokenType := Whitespace, text := "", column := m.cur.column + 1))
  {
    StepBlank(m, c);
    RunSnoc(s, a, c, m);
  }

  /** A non-empty word followed by a space, tab or carriage return, read from
      an empty accumulator, emits exactly one token: an INTEGER_LITERAL when
      the word is all digits and an IDENTIFIER otherwise (so a word may start
      with digits), with the word upper-cased as its text and the position of
      the blank that closed it. */
  lemma RunWordThenBlank(s: Scan, w: string, c: char)
    requires s.cur.tokenType == Whitespace && s.cur.text == ""
    requires |w| > 0 && IsWord(w)
    requires IsSpace(c)
    ensures Run(s, w + [c])
            == Scan(s.tokens + [Token(WordKind(w),
                                      UpperAll(w), s.cur.line, s.cur.column + |w|, s.cur.filePath)],
                    s.cur.(column := s.cur.column + |w| + 1))
  {
    var tok := Token(WordKind(w),
                     UpperAll(w), s.cur.line, s.cur.column + |w|, s.cur.filePath);
    RunWord(s, w);
    assert "" + UpperAll(w) == UpperAll(w);
    RunThenBlank(s, w, c, Scan(s.tokens, tok));
  }

  /** The scan of a single word and blank. */
  lemma LexWord(filePath: string, w: string, c: char)
    requires |w| > 0 && IsWord(w)
    requires IsSpace(c)
    ensures Lex(filePath, w + [c])
            == [Token(WordKind(w), UpperAll(w), 1, 1 + |w|, filePath)]
  {
    RunWordThenBlank(InitialScan(filePath), w, c);
  }

  /** Digits are unaffected by upper-casing. */
  lemma DigitsAreUnchanged(w: string)
    requires AllDigits(w)
    ensures IsWord(w) && UpperAll(w) == w
  {
  }

  /** A dot after an integer makes it a float and is kept in the text. */
  lemma StepDotAfterInteger(s: Scan)
    requires s.cur.tokenType == IntegerLiteral
    ensures Step(s, '.') == Scan(s.tokens, s.cur.(tokenType := FloatLiteral, text := s.cur.text + ['.'],
                                                  column := s.cur.column + 1))
  {
  }

  /** Digits read from an empty accumulator make an INTEGER_LITERAL. */
  lemma RunDigits(s: Scan, w: string)
    requires s.cur.tokenType == Whitespace && s.cur.text == ""
    requires |w| > 0 && AllDigits(w)
    ensures Run(s, w) == Scan(s.tokens, s.cur.(tokenType := IntegerLiteral, text := w, column := s.cur.column + |w|))
  {
    DigitsAreUnchanged(w);
    RunWord(s, w);
    assert "" + w == w;
  }

  /** Digits after the dot of a float are appended unchanged. */
  lemma RunFraction(s: Scan, w: string)
    requires s.cur.tokenType == FloatLiteral
    requires AllDigits(w)
    ensures Run(s, w) == Scan(s.tokens, s.cur.(text := s.cur.text + w, column := s.cur.column + |w|))
  {
    DigitsAreUnchanged(w);
    RunWord(s, w);
  }

  /** Digits and a dot, read from an empty accumulator, make a float. */
  lemma RunIntegerDot(s: Scan, whole: string)
    requires s.cur.tokenType == Whitespace && s.cur.text == ""
    requires |whole| > 0 && AllDigits(whole)
    ensures Run(s, whole + ['.'])
            == Scan(s.tokens, s.cur.(tokenType := FloatLiteral, text := whole + ['.'],
                                     column := s.cur.column + |whole| + 1))
  {
    var m1 := Scan(s.tokens, s.cur.(tokenType := IntegerLiteral, text := whole, column := s.cur.column + |whole|));
    RunDigits(s, whole);
    StepDotAfterInteger(m1);
    RunSnoc(s, whole, '.', m1);
  }

  /** Digits, a dot and more digits, read from an empty accumulator, build a
      FLOAT_LITERAL whose text keeps the dot, and emit nothing. */
  lemma RunFloat(s: Scan, whole: string, frac: string)
    requires s.cur.tokenType == Whitespace && s.cur.text == ""
    requires |whole| > 0 && AllDigits(whole) && AllDigits(frac)
    ensures Run(s, whole + ['.'] + frac)
            == Scan(s.tokens, s.cur.(tokenType := FloatLiteral, text := whole + ['.'] + frac,
                                     column := s.cur.column + |whole| + 1 + |frac|))
  {
    var m2 := Scan(s.tokens, s.cur.(tokenType := FloatLiteral, text := whole + ['.'], column := s.cur.column + |whole| + 1));
    RunIntegerDot(s, whole);
    RunFraction(m2, frac);
    RunAppend(s, whole + ['.'], frac);
  }

  /** Digits, a dot and more digits, followed by a space, tab or carriage
      return, give one FLOAT_LITERAL token whose text keeps the dot. */
  lemma RunFloatThenBlank(s: Scan, whole: string, frac: string, c: char)
    requires s.cur.tokenType == Whitespace && s.cur.text == ""
    requires |whole| > 0 && AllDigits(whole) && AllDigits(frac)
    requires IsSpace(c)
    ensures Run(s, whole + ['.'] + frac + [c])
            == Scan(s.tokens + [Token(FloatLiteral, whole + ['.'] + frac, s.cur.line,
                                      s.cur.column + |whole| + 1 + |frac|, s.cur.filePath)],
                    s.cur.(column := s.cur.column + |whole| + |frac| + 2))
  {
    var m := Scan(s.tokens, s.cur.(tokenType := FloatLiteral, text := whole + ['.'] + frac,
                                   column := s.cur.column + |whole| + 1 + |frac|));
    RunFloat(s, whole, frac);
    RunThenBlank(s, whole + ['.'] + frac, c, m);
  }

  /** Inside a comment every character but newline is appended and nothing
      is emitted. */
  lemma {:induction false} RunCommentBody(s: Scan, body: string)
    requires s.cur.tokenType == Comment
    requires forall i :: 0 <= i < |body| ==> body[i] != '\n'
    ensures Run(s, body) == Scan(s.tokens, s.cur.(text := s.cur.text + body, column := s.cur.column + |body|))
    decreases |body|
  {
    if |body| > 0 {
      var s' := Scan(s.tokens, s.cur.(text := s.cur.text + [body[0]], column := s.cur.column + 1));
      assert Step(s, body[0]) == s';
      RunCommentBody(s', body[1..]);
      RunCons(s, body);
      assert s.cur.text + [body[0]] + body[1..] == s.cur.text + body;
    }
  }

  /** A slash on an empty accumulator may start a comment. */
  lemma StepFirstSlash(s: Scan)
    requires s.cur.tokenType == Whitespace
    ensures Step(s, '/') == Scan(s.tokens, s.cur.(tokenType := Slash, column := s.cur.column + 1))
  {
  }

  /** A second slash opens a comment. */
  lemma StepSecondSlash(s: Scan)
    requires s.cur.tokenType == Slash
    ensures Step(s, '/') == Scan(s.tokens, s.cur.(tokenType := Comment, column := s.cur.column + 1))
  {
  }

  /** Two slashes on an empty accumulator open a comment. */
  lemma OpenComment(s: Scan)
    requires s.cur.tokenType == Whitespace
    ensures Run(s, "//") == Scan(s.tokens, s.cur.(tokenType := Comment, column := s.cur.column + 2))
  {
    var m1 := Scan(s.tokens, s.cur.(tokenType := Slash, column := s.cur.column + 1));
    StepFirstSlash(s);
    RunSnoc(s, [], '/', s);
    StepSecondSlash(m1);
    RunSnoc(s, ['/'], '/', m1);
    assert ['/'] + ['/'] == "//";
  }

  /** A newline inside a comment closes it without emitting anything. */
  lemma CloseComment(s: Scan)
    requires s.cur.tokenType == Comment
    ensures Run(s, "\n") == Scan(s.tokens, s.cur.(tokenType := Whitespace, text := "",
                                                   line := s.cur.line + 1, column := 1))
  {
    RunCons(s, "\n");
    assert "\n"[1..] == [];
  }

  /** A line comment read from an empty accumulator emits nothing; its text
      is discarded and the scanner continues at column 1 of the next line. */
  lemma LineComment(s: Scan, body: string)
    requires s.cur.tokenType == Whitespace && s.cur.text == ""
    requires forall i :: 0 <= i < |body| ==> body[i] != '\n'
    ensures Run(s, "//" + body + "\n") == Scan(s.tokens, s.cur.(line := s.cur.line + 1, column := 1))
  {
    OpenComment(s);
    var m2 := Run(s, "//");
    RunCommentBody(m2, body);
    var m3 := Run(m2, body);
    CloseComment(m3);
    RunAppend(s, "//", body);
    RunAppend(s, "//" + body, "\n");
  }

  /** The category each operator character sets. */
  function OperatorType(ch: char): TokenType
    requires IsOperator(ch)
  {
    match ch
    case '.' => Dot
    case ',' => Comma
    case '+' => Plus
    case '-' => Minus
    case '<' => LessThan
    case '>' => GreaterThan
    case '=' => Equal
  }

  predicate IsOperator(ch: char) {
    ch == '.' || ch == ',' || ch == '+' || ch == '-' || ch == '<' || ch == '>' || ch == '='
  }

  /** Outside comments, string literals and integers, an operator character
      overwrites the category and leaves the text alone. */
  lemma StepOperator(s: Scan, ch: char)
    requires s.cur.tokenType != Comment && s.cur.tokenType != StringLiteral
    requires s.cur.tokenType != IntegerLiteral
    requires IsOperator(ch)
    ensures Step(s, ch) == Scan(s.tokens, s.cur.(tokenType := OperatorType(ch), column := s.cur.column + 1))
  {
  }

  /** A run of operator characters outside comments, string literals and
      integers does not close anything: each one overwrites the category of
      the same token, so only the last operator's category survives and the
      text is left as it was. */
  lemma {:induction false} RunOperators(s: Scan, ops: string)
    requires s.cur.tokenType != Comment && s.cur.tokenType != StringLiteral
    requires s.cur.tokenType != IntegerLiteral
    requires |ops| > 0
    requires forall i :: 0 <= i < |ops| ==> IsOperator(ops[i])
    ensures Run(s, ops) == Scan(s.tokens, s.cur.(tokenType := OperatorType(ops[|ops| - 1]),
                                                 column := s.cur.column + |ops|))
    decreases |ops|
  {
    StepOperator(s, ops[0]);
    var s' := Scan(s.tokens, s.cur.(tokenType := OperatorType(ops[0]), column := s.cur.column + 1));
    RunCons(s, ops);
    if |ops| > 1 {
      assert forall i :: 0 <= i < |ops[1..]| ==> IsOperator(ops[1..][i]) by {
        forall i | 0 <= i < |ops[1..]| ensures IsOperator(ops[1..][i]) {
          assert ops[1..][i] == ops[i + 1];
        }
      }
      RunOperators(s', ops[1..]);
      assert ops[1..][|ops[1..]| - 1] == ops[|ops| - 1];
    } else {
      assert ops[1..] == [];
    }
  }

  /** Operators followed by a space, tab or carriage return give a single token
      of the last operator's category, with empty text. */
  lemma RunOperatorsThenBlank(s: Scan, ops: string, c: char)
    requires s.cur.tokenType == Whitespace && s.cur.text == ""
    requires |ops| > 0
    requires forall i :: 0 <= i < |ops| ==> IsOperator(ops[i])
    requires IsSpace(c)
    ensures Run(s, ops + [c])
            == Scan(s.tokens + [Token(OperatorType(ops[|ops| - 1]), "", s.cur.line, s.cur.column + |ops|, s.cur.filePath)],
                    s.cur.(column := s.cur.column + |ops| + 1))
  {
    RunOperators(s, ops);
    var m := Scan(s.tokens, s.cur.(tokenType := OperatorType(ops[|ops| - 1]), column := s.cur.column + |ops|));
    RunThenBlank(s, ops, c, m);
  }

  /** After input that leaves an empty WHITESPACE accumulator, a line
      comment emits nothing and moves to column 1 of the next line. */
  lemma RunThenLineComment(s: Scan, a: string, body: string, m: Scan)
    requires Run(s, a) == m
    requires m.cur.tokenType == Whitespace && m.cur.text == ""
    requires forall i :: 0 <= i < |body| ==> body[i] != '\n'
    ensures Run(s, a + ("//" + body + "\n")) == Scan(m.tokens, m.cur.(line := m.cur.line + 1, column := 1))
  {
    LineComment(m, body);
    RunChain(s, a, "//" + body + "\n", m, Scan(m.tokens, m.cur.(line := m.cur.line + 1, column := 1)));
  }

  /** A word closed by a blank and then a line comment: only the word is
      emitted and the scanner moves to column 1 of the next line. */
  lemma WordThenLineComment(s: Scan, w: string, body: string, c: char)
    requires s.cur.tokenType == Whitespace && s.cur.text == ""
    requires |w| > 0 && IsWord(w)
    requires forall i :: 0 <= i < |body| ==> body[i] != '\n'
    requires IsSpace(c)
    ensures Run(s, (w + [c]) + ("//" + body + "\n"))
            == Scan(s.tokens + [Token(WordKind(w), UpperAll(w), s.cur.line, s.cur.column + |w|, s.cur.filePath)],
                    s.cur.(line := s.cur.line + 1, column := 1))
  {
    var t := Token(WordKind(w), UpperAll(w), s.cur.line, s.cur.column + |w|, s.cur.filePath);
    var s1 := Scan(s.tokens + [t], s.cur.(column := s.cur.column + |w| + 1));
    RunWordThenBlank(s, w, c);
    RunThenLineComment(s, w + [c], body, s1);
  }

  /** Two words around a line comment: the comment leaves no token, and the
      second word is counted on the next line from column 1. */
  lemma WordsAroundLineComment(s: Scan, w1: string, body: string, w2: string, c: char)
    requires s.cur.tokenType == Whitespace && s.cur.text == ""
    requires |w1| > 0 && IsWord(w1) && |w2| > 0 && IsWord(w2)
    requires forall i :: 0 <= i < |body| ==> body[i] != '\n'
    requires IsSpace(c)
    ensures Run(s, (w1 + [c]) + ("//" + body + "\n") + (w2 + [c]))
            == Scan(s.tokens + [Token(WordKind(w1), UpperAll(w1), s.cur.line, s.cur.column + |w1|, s.cur.filePath)]
                             + [Token(WordKind(w2), UpperAll(w2), s.cur.line + 1, 1 + |w2|, s.cur.filePath)],
                    s.cur.(line := s.cur.line + 1, column := |w2| + 2))
  {
    var t1 := Token(WordKind(w1), UpperAll(w1), s.cur.line, s.cur.column + |w1|, s.cur.filePath);
    var t2 := Token(WordKind(w2), UpperAll(w2), s.cur.line + 1, 1 + |w2|, s.cur.filePath);
    var s2 := Scan(s.tokens + [t1], s.cur.(line := s.cur.line + 1, column := 1));
    WordThenLineComment(s, w1, body, c);
    RunWordThenBlank(s2, w2, c);
    RunChain(s, (w1 + [c]) + ("//" + body + "\n"), w2 + [c], s2,
             Scan(s.tokens + [t1] + [t2], s.cur.(line := s.cur.line + 1, column := |w2| + 2)));
  }

  /** A quoted literal and a blank, read from an empty accumulator, emit the
      literal with its text verbatim whatever it contains; a newline inside
      it is not a line break, so the scanner stays on the same line. */
  lemma QuotedThenBlank(s: Scan, body: string, c: char)
    requires s.cur.tokenType == Whitespace && s.cur.text == ""
    requires forall i :: 0 <= i < |body| ==> body[i] != '"'
    requires IsSpace(c)
    ensures Run(s, (['"'] + body + ['"']) + [c])
            == Scan(s.tokens + [Token(StringLiteral, body, s.cur.line, s.cur.column + 1 + |body|, s.cur.filePath)],
                    s.cur.(column := s.cur.column + |body| + 3))
  {
    var s1 := Scan(s.tokens + [Token(StringLiteral, body, s.cur.line, s.cur.column + 1 + |body|, s.cur.filePath)],
                   s.cur.(column := s.cur.column + |body| + 2));
    StringLiteralVerbatim(s, body);
    assert Run(s, ['"'] + body + ['"']) == s1;
    StepBlank(s1, c);
    RunSnoc(s, ['"'] + body + ['"'], c, s1);
  }
}

=== FILE: token_type.dfy ===
/**
 * The token-type registry: a closed set of sixteen lexical categories and the
 * fixed two-way table between each category and its upper-case name.
 */
module TokenTypes {
  import opened Wrappers

  /** The lexical categories. `Whitespace` doubles as the "no token yet" state
      and `Comment` as the "inside a line comment" state; neither is ever
      emitted by the scanner. */
  datatype TokenType =
    | Whitespace
    | Identifier
    | StringLiteral
    | IntegerLiteral
    | FloatLiteral
    | Dot
    | Comma
    | Plus
    | Minus
    | LessThan
    | GreaterThan
    | Equal
    | Slash
    | Backslash
    | Star
    | Comment

  /** Every category, in the order of the registry table. */
  const AllTokenTypes: seq<TokenType> := [
    Whitespace, Identifier, StringLiteral, IntegerLiteral, FloatLiteral,
    Dot, Comma, Plus, Minus, LessThan, GreaterThan, Equal,
    Slash, Backslash, Star, Comment
  ]

  /** A canonical name: non-empty, made of upper-case ASCII letters and `_`. */
  predicate IsCanonicalName(s: string) {
    && |s| > 0
    && forall c :: c in s ==> ('A' <= c <= 'Z' || c == '_')
  }

  /** The category-to-name direction of the registry. */
  function ToString(t: TokenType): (name: string)
    ensures IsCanonicalName(name)
  {
    match t
    case Whitespace => "WHITESPACE"
    case Identifier => "IDENTIFIER"
    case StringLiteral => "STRING_LITERAL"
    case IntegerLiteral => "INTEGER_LITERAL"
    case FloatLiteral => "FLOAT_LITERAL"
    case Dot => "DOT"
    case Comma => "COMMA"
    case Plus => "PLUS"
    case Minus => "MINUS"
    case LessThan => "LESS_THAN"
    case GreaterThan => "GREATER_THAN"
    case Equal => "EQUAL"
    case Slash => "SLASH"
    case Backslash => "BACKSLASH"
    case Star => "STAR"
    case Comment => "COMMENT"
  }

  /** The first category of `ts` whose name is `s`, if any. */
  function FindByName(ts: seq<TokenType>, s: string): (r: Option<TokenType>)
    ensures r.Some? ==> r.value in ts && ToString(r.value) == s
    ensures r.None? ==> forall t :: t in ts ==> ToString(t) != s
  {
    if |ts| == 0 then None
    else if ToString(ts[0]) == s then Some(ts[0])
    else FindByName(ts[1..], s)
  }

  /** The name-to-category direction of the registry. A name outside the
      table yields `None`. */
  function ToTokenType(s: string): (r: Option<TokenType>)
    ensures r.Some? ==> ToString(r.value) == s
    ensures r.None? ==> forall t :: ToString(t) != s
  {
    AllTokenTypesComplete();
    FindByName(AllTokenTypes, s)
  }

  /** The table lists every category. */
  lemma AllTokenTypesComplete()
    ensures forall t :: t in AllTokenTypes
  {
    forall t ensures t in AllTokenTypes {
      match t
      case Whitespace => assert AllTokenTypes[0] == t;
      case Identifier => assert AllTokenTypes[1] == t;
      case StringLiteral => assert AllTokenTypes[2] == t;
      case IntegerLiteral => assert AllTokenTypes[3] == t;
      case FloatLiteral => assert AllTokenTypes[4] == t;
      case Dot => assert AllTokenTypes[5] == t;
      case Comma => assert AllTokenTypes[6] == t;
      case Plus => assert AllTokenTypes[7] == t;
      case Minus => assert AllTokenTypes[8] == t;
      case LessThan => assert AllTokenTypes[9] == t;
      case GreaterThan => assert AllTokenTypes[10] == t;
      case Equal => assert AllTokenTypes[11] == t;
      case Slash => assert AllTokenTypes[12] == t;
      case Backslash => assert AllTokenTypes[13] == t;
      case Star => assert AllTokenTypes[14] == t;
      case Comment => assert AllTokenTypes[15] == t;
    }
  }

  /** No two categories share a name. */
  lemma NamesDistinct(a: TokenType, b: TokenType)
    ensures ToString(a) == ToString(b) ==> a == b
  {
  }

  /** Name lookup undoes naming: every category comes back from its name. */
  lemma ToTokenTypeOfToString(t: TokenType)
    ensures ToTokenType(ToString(t)) == Some(t)
  {
    var r := ToTokenType(ToString(t));
    assert r.Some?;
    NamesDistinct(r.value, t);
  }

  /** Naming undoes name lookup: every name the table knows comes back. */
  lemma ToStringOfToTokenType(s: string)
    requires ToTokenType(s).Some?
    ensures ToString(ToTokenType(s).value) == s
  {
  }
}

=== FILE: wrappers.dfy ===
/** The optional-value datatype used for lookups that can fail. */
module Wrappers {

  datatype Option<+T> = None | Some(value: T)
}
